=== FILE: README.md ===
# Dixit Telegram bot: card messages, card menus and the round report

A Dafny model of the Telegram front-end of a Dixit bot (`main.py`). Players
play and vote by sending the group a message `<user_id>:<card_id>`. The
storyteller adds a second line holding the clue. The model covers three
parts of the front-end:

- `parse_cards`, which handles such a message. It parses the ids, finds the
  player and the card, and calls the game engine's operation for the
  current stage. A vote that completes the round also ends the round.
- `inline_callback`, which picks the cards shown in a player's inline menu.
- The `end_of_round` report: the score lines and the votes grouped by the
  player voted for.

The game engine (`DixitGame`) is not part of this model. The front-end
sees it as the five operations of `Dixit.Engine`: `storyteller_turn`,
`player_turns`, `voting_turns`, `end_of_round` and `new_round`. Each is an
arbitrary function value that returns a new game or raises. Every property
of the dispatch is proved for every engine, except where a lemma states
what it assumes of the engine (`Dispatch.RecordsOneVote`). Handling one
message yields a `Dispatch.Step`. It records how the handling ended
(completed, rejected with a reply, or an uncaught exception), the engine
calls made in order, the resulting game, and the notices posted to the chat.
`Dispatch.Accounts` states that the game changes only through the recorded
calls.

Modules: `Wrappers` (Option, Result), `Seqs` (search, filter, dedup,
join/split), `Decimal` (numerals), `Dict` (Python dicts as insertion-ordered
pair lists, `setdefault`), `Dixit` (the game as the front-end sees it, the
engine, the list-comprehension lookups), `CardMessage` (the message filter
and parser), `Visibility` (the inline menu), `RoundReport` (the report),
`Dispatch` (`parse_cards`) and `Routing` (facts relating the handler to
the steps of the stages).

Behaviour follows the code where it is sharper than a plain reading:

- Python's `$` also matches just before a final newline. So the filter
  `^\d+:\d+(?:\n.*)?$` admits a clue line that ends in one newline.
- The `assert` on line 153 is a precondition (`Dispatch.StorytellerAsserted`).
  In stage 1, a message from anyone but the storyteller fails it.
- In stage 3 the handler's bare `except` catches the failed unpacking and
  the `KeyError` of a player with no table entry. It then calls
  `send_message` without its arguments, which raises; and were it not to,
  `sender` would be unbound at line 189. So a vote for a card
  without exactly one owner ends in an uncaught exception, before
  `voting_turns` and with the game unchanged (`Fault.NoUniqueOwner`).
- The round ends when the vote count after `voting_turns` equals the player
  count minus one. The front-end does not check that the votes come from
  distinct non-storyteller players. That is left to the engine.

## Model

| member | source | states |
|---|---|---|
| CardMessage.SplitFirstLine | main.py:135 | the first piece has no newline, there is at most one rest piece, and joining them with a newline gives the text back |
| CardMessage.Parse | main.py:135-136 | a parsed message has at most one clue, and exactly one iff the text has a newline |
| CardMessage.ParseFormat | main.py:135-136 | parsing the text of any message with at most one clue gives back its ids and clue |
| CardMessage.AcceptedIffParses | main.py:245 | the message filter (`CardMessage.Accepted`) accepts a text exactly when it parses into two ids and at most one clue line |
| CardMessage.FormatAccepted | main.py:245 | every message with a one-line clue or none passes the filter |
| CardMessage.Message | main.py:133-136 | any text the filter lets through parses, with a clue that is one line |
| Decimal.ValueOfNumeral | main.py:136 | `int` of the decimal numeral of n is n |
| Dixit.PlayersWithId | main.py:140 | the players kept are exactly those with the id, each as often as in the player list |
| Dixit.CardsWithId | main.py:147 | the cards kept are exactly those with the id, each as often as in the card list |
| Dixit.Single | main.py:140-150 | the unpacking succeeds iff the list has exactly one element, and yields it |
| Dixit.Owners | main.py:184-185 | the lookup fails iff some player has no table entry; otherwise it keeps exactly the players whose table card is the one voted for |
| Dict.SetDefaultAppend | main.py:213 | appending under a key keeps the key order, adding the key at the end when it is new, and keeps the keys distinct |
| Dict.GetSetDefaultAppend | main.py:213 | `setdefault(k, []).append(v)` appends v to k's list, starting from an empty list, and leaves every other key's list alone |
| Dict.SetDefaultAppendSizes | main.py:213 | each append adds exactly one element in total and never leaves an empty list |
| Visibility.CardsToOffer | main.py:113-123 | the menu shows the table in stage 3 and the hand otherwise; the wait text appears iff it is not the player's move; only the storyteller in stage 1 gets the query as clue |
| Visibility.OfferFor | main.py:107-123 | for a player in a game, the cards shown are the table's cards in stage 3 and the player's hand otherwise, and the wait text appears iff the player is not expected to act |
| Visibility.OfferedCardsIgnoreRole | main.py:114-122 | the storyteller and the other players are shown the same cards in every stage |
| RoundReport.ScoreLine | main.py:207 | a score line ends in a space when the round's points are zero and in `)` otherwise |
| RoundReport.ReadScoreLineRoundTrip | main.py:207 | the total and the round's points can be read back from a score line |
| RoundReport.ScoreLineIsOneLine | main.py:207 | a score line holds no newline when the name holds none |
| RoundReport.ScoreBoardReadBack | main.py:207-208 | the joined score board (`RoundReport.ScoreBoard`) splits into one line per player, in score order, each giving back that player's scores |
| RoundReport.VotersOf | main.py:212-213 | the voters listed for a player are exactly those who voted for them |
| RoundReport.GroupVotes | main.py:211-213 | the groups have distinct keys and no empty list, and together hold one entry per vote |
| RoundReport.GroupKeys | main.py:211-213 | the groups are keyed by the players voted for, without repeats, in order of their first vote |
| RoundReport.GroupContents | main.py:212-213 | a player voted for has a group holding their voters in vote order; any other player has none |
| RoundReport.GroupVotesMeaning | main.py:211-213 | the grouping keeps first-vote key order and voters in vote order for every player |
| RoundReport.VoterInExactlyOneGroup | main.py:212-213 | when each voter votes once, a voter appears in a group exactly when it is the group of the player they voted for |
| RoundReport.GroupsInFirstVoteOrder | main.py:212-214 | an earlier group's player first received a vote before a later group's player did |
| RoundReport.VoteLines | main.py:214-218 | the listing has one line per vote plus one blank line per group |
| RoundReport.RegroupVoteLines | main.py:214-218 | the groups can be read back from the listing: the arrow line, the further voters, then the blank line |
| RoundReport.VoteList | main.py:210-219 | the vote listing has one line per vote and one per group, and it reads back to the grouping of the votes |
| RoundReport.VoteTextLineCount | main.py:214-219 | the joined vote text (`RoundReport.VoteText`) has one line per vote and per group when no player's rendering holds a newline |
| Dispatch.StorytellerStep | main.py:152-167 | without a clue line the message is rejected with no engine call; otherwise `storyteller_turn` is called with the card and clue, the handling completes exactly when that call returns; the new clue is posted then and nothing is posted otherwise |
| Dispatch.PlayerStep | main.py:169-180 | `player_turns` is called once with the player and card; the handling completes exactly when it returns; the only message ever posted is the voting announcement, exactly when the call returned and the game has moved to stage 3 |
| Dispatch.CloseRound | main.py:193-225 | after the vote, `end_of_round` is called; if it returns, the handling crashes exactly when the storyteller has no table card; otherwise the answer, the score board and the vote listing are posted and `new_round` is called; the handling completes exactly when `new_round` returns, and only then is the next storyteller prompted |
| Dispatch.VoteStep | main.py:182-195 | a card without one owner crashes with no call; otherwise `voting_turns` gets the owner; the round ends iff the recorded votes number one less than the players; a vote that does not end the round completes with that one call and posts nothing; a vote that ends it continues as the round close, with its report, `new_round` and prompt |
| Dispatch.HandleCardMessage | main.py:129-195 | unknown players and cards are rejected with the game unchanged; every call is the one the stage permits; a found message in stage 1 without a clue is rejected, and one with a clue calls `storyteller_turn` with its card and clue, only for the storyteller; in stage 2 it calls `player_turns` with its player and card; in stage 3 it crashes without a call unless the card has one owner, and otherwise votes for that owner; stage 0 completes doing nothing; only a vote can end a round; the game changes only through the calls made |
| Routing.RoutesByStage | main.py:152-195 | once the player and card are found, the handler is exactly the stage's step: the storyteller's turn in stage 1, the play in stage 2, the vote in stage 3 |
| Routing.RecordedVoteCompletes | main.py:189-193 | a vote that `voting_turns` records and that does not end the round returns normally, with that one call and no message |
| Dispatch.HandlerNotices | main.py:152-193 | stage 1 posts the clue exactly when `storyteller_turn` returns and nothing otherwise; stage 2 posts only the voting announcement, when stage 3 is reached; stage 3 posts nothing unless the round ends; stage 0 posts nothing |
| Dispatch.UnownedCardCrashes | main.py:183-189 | a vote for a card without a single owner (`Dispatch.UniqueOwner` is None) crashes before `voting_turns`, with the game unchanged |
| Dispatch.RoundEndsWhenAllVoted | main.py:189-194 | a found vote ends the round iff `voting_turns` returns and its game has one vote fewer than players |
| Dispatch.MenuAgreesWithAssert | main.py:114-153 | in stage 1 a found player's message passes the storyteller assertion (`Dispatch.StorytellerAsserted`) exactly when their card menu shows no wait text |
| Dispatch.RoundEndsOnLastVote | main.py:189-194 | with an engine that records one vote per call, the round ends iff the vote recorded is the one that brings the count to one less than the players |

## Left out

- The game engine `DixitGame` (game.py) is not part of this model: dealing, scoring, stage transitions and how it validates a play or a vote. Its operations are parameters. An operation that raises is assumed to leave the game as it was.
- Telegram I/O is left out: `send_message`, `send_photo`, `menu_card`, `Updater`, the handler registration and the bot's main loop. Posted messages are recorded as `Dispatch.Notice` values, with their content reduced to what the game determines (clue, card, score text, vote lines).
- The commands `newgame`, `joingame` and `startgame` are left out, as are the decorators and `find_user_games` in utils.py, which is not part of this model. The lookups on lines 104-106 that find the game and the player from the Telegram user are left out too: `Visibility.OfferFor` starts from the player.
- `Dispatch.HandleCardMessage` does not check the sender's Telegram identity against the message's user id. Neither does the code, so anyone can play for anyone.
- A card message in a chat with no game is left out. The message handler has no game check, so reading the chat's game at main.py:131 raises KeyError there. `Dispatch.HandleCardMessage` takes the game as a parameter and describes only chats that have one.
- Players and cards are compared as plain records, by id and name or id and url. The code compares engine objects whose equality and hashing are defined in game.py: the storyteller check at main.py:153 and the table lookup at main.py:185. game.py is not part of this model, so the model assumes those objects are equal exactly when their fields are.
- The dicts `table`, `votes` and `score` of `Dixit.Game` are lists of pairs that are not required to have distinct keys. So the dispatch lemmas also cover states no Python dict can reach; `RoundReport.VoterInExactlyOneGroup` states distinct voters as its own precondition.
- Logging and the bot token are left out.
- Concurrent updates to the same chat are left out: each message is handled on its own.
- `Decimal.ValueOfNumeral`: `\d` and `int` are modelled for ASCII digits only. Python also accepts other Unicode decimal digits.
- `RoundReport.VoteTextLineCount`: how a player is rendered (`str(player)`) is the parameter `show`. The model does not fix a rendering.
- `Dispatch.HandleCardMessage`: the `assert` on line 153 is a precondition. Under `python -O` it is skipped and a non-storyteller's stage-1 message would reach `storyteller_turn`.

=== FILE: card_message.dfy ===
/** The text message a player sends to play or vote for a card:
    `<user_id>:<card_id>`, optionally followed by a newline and a clue.
    The bot only hands a message to `parse_cards` when it matches the
    regular expression `^\d+:\d+(?:\n.*)?$` (main.py:245), and then cuts it at
    the first newline and cuts the first line at the colons. */
module CardMessage {
  import opened Wrappers
  import opened Seqs
  import opened Decimal

  /** The two ids and the clue list, which is empty or holds the one
      string that followed the first newline. */
  datatype CardMessage = CardMessage(userId: nat, cardId: nat, clue: seq<string>)

  predicate NoNewline(s: string) {
    '\n' !in s
  }

  /** What `.*$` accepts: one line, which may end in a single newline,
      because Python's `$` also matches just before a final newline. */
  predicate LastLine(s: string) {
    NoNewline(s) || (|s| > 0 && s[|s| - 1] == '\n' && NoNewline(s[..|s| - 1]))
  }

  /** A clue list whose clue, if any, could follow the ids in a message
      the filter accepts. */
  predicate ClueShape(clue: seq<string>) {
    |clue| == 0 || LastLine(clue[0])
  }

  /** The message filter `^\d+:\d+(?:\n.*)?$`.  Each `\d+` can only match the
      whole run of digits, since what follows it (`:`, a newline or the end)
      is not a digit. */
  predicate Accepted(t: string) {
    var i := SpanDigits(t);
    && 0 < i < |t|
    && t[i] == ':'
    && var j := SpanDigits(t[i + 1..]);
    && 0 < j
    && var rest := t[i + 1 + j..];
    && (rest == [] || (rest[0] == '\n' && LastLine(rest[1..])))
  }

  /** A split at the first newline only: the text before it, and everything
      after it when there is one. */
  function SplitFirstLine(t: string): (r: (string, seq<string>))
    ensures NoNewline(r.0)
    ensures |r.1| <= 1
    ensures t == r.0 + (if |r.1| == 0 then "" else "\n" + r.1[0])
  {
    match IndexOf(t, '\n')
    case None => (t, [])
    case Some(i) =>
      assert t == t[..i] + "\n" + t[i + 1..];
      (t[..i], [t[i + 1..]])
  }

  /** The first line must cut at its colons into exactly two decimal
      numerals, the user id and the card id; None where Python raises
      ValueError, for first lines the filter admits (Python's `int` also
      takes signs, surrounding blanks and underscores, which never get
      past the filter). */
  function ParseIds(data: string): Option<(nat, nat)>
  {
    var parts := Split(data, ':');
    if |parts| == 2 && IsNumeral(parts[0]) && IsNumeral(parts[1]) then
      Some((Value(parts[0]), Value(parts[1])))
    else None
  }

  /** Lines 135-136 of `parse_cards`. */
  function Parse(t: string): (r: Option<CardMessage>)
    ensures r.Some? ==> |r.value.clue| <= 1
    ensures r.Some? ==> (|r.value.clue| == 1 <==> '\n' in t)
  {
    var (data, clue) := SplitFirstLine(t);
    match ParseIds(data)
    case None => None
    case Some((userId, cardId)) => Some(CardMessage(userId, cardId, clue))
  }

  /** The message text carrying `m`. */
  function Format(m: CardMessage): string
    requires |m.clue| <= 1
  {
    Numeral(m.userId) + ":" + Numeral(m.cardId)
    + (if |m.clue| == 0 then "" else "\n" + m.clue[0])
  }

  /** Neither a newline nor a colon occurs in a run of digits. */
  lemma NotInDigits(s: string, c: char)
    requires AllDigits(s)
    requires !IsDigit(c)
    ensures c !in s
  {
  }

  /** The first-line split is determined by any decomposition into a
      newline-free head and a rest that is empty or starts a new line. */
  lemma SplitFirstLineOf(t: string, data: string, rest: string)
    requires NoNewline(data)
    requires rest == [] || rest[0] == '\n'
    requires t == data + rest
    ensures SplitFirstLine(t) == (data, if rest == [] then [] else [rest[1..]])
  {
    if rest == [] {
      assert t == data;
      assert IndexOf(t, '\n') == None;
    } else {
      assert t[..|data|] == data;
      IndexOfIs(t, '\n', |data|);
      assert t[|data| + 1..] == rest[1..];
    }
  }

  /** Splitting `a:b` at the colon, when neither side holds one. */
  lemma SplitPair(a: string, b: string)
    requires ':' !in a && ':' !in b
    ensures Split(a + ":" + b, ':') == [a, b]
  {
    assert Join([a, b], ':') == a + ":" + b by {
      assert [a, b][1..] == [b];
    }
    SplitJoin([a, b], ':');
  }

  /** Parsing a formatted message gives the message back. */
  lemma ParseFormat(m: CardMessage)
    requires |m.clue| <= 1
    ensures Parse(Format(m)) == Some(m)
  {
    var u := Numeral(m.userId);
    var c := Numeral(m.cardId);
    var rest: string := if |m.clue| == 0 then "" else "\n" + m.clue[0];
    var data := u + ":" + c;
    NotInDigits(u, '\n');
    NotInDigits(c, '\n');
    NotInDigits(u, ':');
    NotInDigits(c, ':');
    assert Format(m) == data + rest;
    SplitFirstLineOf(Format(m), data, rest);
    if |m.clue| == 1 {
      assert rest[1..] == m.clue[0];
      assert [m.clue[0]] == m.clue;
    }
    SplitPair(u, c);
    ValueOfNumeral(m.userId);
    ValueOfNumeral(m.cardId);
  }

  /** A message the filter accepts always parses: the ids are numerals and
      the clue is one line. */
  lemma AcceptedParses(t: string)
    requires Accepted(t)
    ensures Parse(t).Some? && ClueShape(Parse(t).value.clue)
  {
    var i := SpanDigits(t);
    var u := t[..i];
    var r := t[i + 1..];
    var j := SpanDigits(r);
    var c := r[..j];
    var rest := r[j..];
    var data := u + ":" + c;
    assert t == data + rest by {
      assert t == t[..i] + [t[i]] + t[i + 1..];
      assert r == r[..j] + r[j..];
    }
    NotInDigits(u, '\n');
    NotInDigits(c, '\n');
    NotInDigits(u, ':');
    NotInDigits(c, ':');
    assert rest == t[i + 1 + j..];
    SplitFirstLineOf(t, data, rest);
    SplitPair(u, c);
  }

  /** The filter accepts two numerals around a colon, followed by nothing
      or by a newline and one line. */
  lemma AcceptedOf(u: string, c: string, rest: string)
    requires IsNumeral(u) && IsNumeral(c)
    requires rest == [] || (rest[0] == '\n' && LastLine(rest[1..]))
    ensures Accepted(u + ":" + c + rest)
  {
    var t := u + ":" + c + rest;
    assert t == u + ([':'] + c + rest);
    SpanDigitsOf(u, [':'] + c + rest);
    assert t[|u|] == ':';
    assert t[|u| + 1..] == c + rest;
    SpanDigitsOf(c, rest);
    assert t[|u| + 1 + |c|..] == rest;
  }

  /** Conversely, a message that parses into ids and a one-line clue is one
      the filter accepts. */
  lemma ParsedAccepted(t: string)
    requires Parse(t).Some? && ClueShape(Parse(t).value.clue)
    ensures Accepted(t)
  {
    var (data, clue) := SplitFirstLine(t);
    var parts := Split(data, ':');
    assert |parts| == 2 && IsNumeral(parts[0]) && IsNumeral(parts[1]);
    var u := parts[0];
    var c := parts[1];
    JoinSplit(data, ':');
    assert parts[1..] == [c];
    assert data == u + ":" + c;
    var rest: string := if |clue| == 0 then "" else "\n" + clue[0];
    assert t == u + ":" + c + rest;
    if rest != [] {
      assert rest[1..] == clue[0];
    }
    AcceptedOf(u, c, rest);
  }

  /** The filter accepts exactly the messages that parse into two ids and at
      most one clue line. */
  lemma AcceptedIffParses(t: string)
    ensures Accepted(t) <==> Parse(t).Some? && ClueShape(Parse(t).value.clue)
  {
    if Accepted(t) {
      AcceptedParses(t);
    }
    if Parse(t).Some? && ClueShape(Parse(t).value.clue) {
      ParsedAccepted(t);
    }
  }

  /** A formatted message passes the filter when its clue is one line. */
  lemma FormatAccepted(m: CardMessage)
    requires |m.clue| <= 1 && ClueShape(m.clue)
    ensures Accepted(Format(m))
  {
    ParseFormat(m);
    ParsedAccepted(Format(m));
  }

  /** The parsed content of a message the filter let through. */
  function Message(t: string): (m: CardMessage)
    requires Accepted(t)
    ensures Parse(t) == Some(m)
    ensures ClueShape(m.clue)
  {
    AcceptedParses(t);
    Parse(t).value
  }
}

=== FILE: decimal.dfy ===
/** Decimal numerals: reading a digit string as a number and writing an
    integer in decimal, restricted to the ASCII digits. */
module Decimal {
  import opened Wrappers

  predicate IsDigit(c: char) {
    '0' as int <= c as int <= '9' as int
  }

  predicate AllDigits(s: string) {
    forall i :: 0 <= i < |s| ==> IsDigit(s[i])
  }

  /** What the regular expression `\d+` matches. */
  predicate IsNumeral(s: string) {
    |s| > 0 && AllDigits(s)
  }

  function DigitValue(c: char): nat
    requires IsDigit(c)
  {
    c as int - '0' as int
  }

  function DigitChar(d: nat): (c: char)
    requires d < 10
    ensures IsDigit(c) && DigitValue(c) == d
  {
    ('0' as int + d) as char
  }

  /** The number a digit string denotes, leading zeros allowed. */
  function Value(s: string): nat
    requires AllDigits(s)
  {
    if |s| == 0 then 0
    else 10 * Value(s[..|s| - 1]) + DigitValue(s[|s| - 1])
  }

  /** The decimal numeral of a natural number, without leading zeros. */
  function Numeral(n: nat): (s: string)
    ensures IsNumeral(s)
  {
    if n < 10 then [DigitChar(n)]
    else Numeral(n / 10) + [DigitChar(n % 10)]
  }

  lemma {:induction false} ValueOfNumeral(n: nat)
    ensures Value(Numeral(n)) == n
  {
    if n >= 10 {
      var s := Numeral(n);
      assert s[..|s| - 1] == Numeral(n / 10);
      ValueOfNumeral(n / 10);
    }
  }

  /** The decimal text of any integer: a minus sign before the magnitude. */
  function IntToString(n: int): (s: string)
    ensures forall i :: 0 <= i < |s| ==> IsDigit(s[i]) || s[i] == '-'
  {
    if n < 0 then "-" + Numeral(-n) else Numeral(n)
  }

  /** Reads back what IntToString writes. */
  function ParseInt(s: string): Option<int>
  {
    if |s| > 0 && s[0] == '-' && IsNumeral(s[1..]) then
      var magnitude: int := Value(s[1..]);
      Some(-magnitude)
    else if IsNumeral(s) then Some(Value(s))
    else None
  }

  lemma ParseIntToString(n: int)
    ensures ParseInt(IntToString(n)) == Some(n)
  {
    var s := IntToString(n);
    if n < 0 {
      assert s[1..] == Numeral(-n);
      ValueOfNumeral(-n);
    } else {
      assert IsDigit(s[0]);
      ValueOfNumeral(n);
    }
  }

  /** Length of the longest all-digit prefix of `s` (a greedy `\d*`). */
  function SpanDigits(s: string): (k: nat)
    ensures k <= |s|
    ensures AllDigits(s[..k])
    ensures k < |s| ==> !IsDigit(s[k])
  {
    if |s| > 0 && IsDigit(s[0]) then
      var k := 1 + SpanDigits(s[1..]);
      assert s[..k] == [s[0]] + s[1..][..k - 1];
      k
    else 0
  }

  /** The digit span ends where the digits of `a` end. */
  lemma SpanDigitsOf(a: string, b: string)
    requires AllDigits(a)
    requires |b| == 0 || !IsDigit(b[0])
    ensures SpanDigits(a + b) == |a|
  {
    var s := a + b;
    var k := SpanDigits(s);
    assert forall t :: 0 <= t < |a| ==> s[t] == a[t];
    assert |b| > 0 ==> s[|a|] == b[0];
    assert forall t :: 0 <= t < k ==> s[..k][t] == s[t];
  }
}

=== FILE: dict.dfy ===
/** Python dicts, which iterate in insertion order, modelled as sequences
    of key/value pairs. */
module Dict {
  import opened Wrappers

  /** No key occurs twice: the shape of a real dict. */
  predicate DistinctKeys<K(==), V>(s: seq<(K, V)>) {
    forall i, j :: 0 <= i < j < |s| ==> s[i].0 != s[j].0
  }

  /** The keys, in iteration order. */
  function Keys<K, V>(s: seq<(K, V)>): (ks: seq<K>)
    ensures |ks| == |s|
    ensures forall i :: 0 <= i < |s| ==> ks[i] == s[i].0
  {
    seq(|s|, i requires 0 <= i < |s| => s[i].0)
  }

  /** The values, in iteration order. */
  function Values<K, V>(s: seq<(K, V)>): (vs: seq<V>)
    ensures |vs| == |s|
    ensures forall i :: 0 <= i < |s| ==> vs[i] == s[i].1
  {
    seq(|s|, i requires 0 <= i < |s| => s[i].1)
  }

  /** The values of a non-empty dict: those of all but the last entry,
      then the last one. */
  lemma ValuesOfLast<K, V>(s: seq<(K, V)>)
    requires |s| > 0
    ensures Values(s) == Values(s[..|s| - 1]) + [s[|s| - 1].1]
  {
  }

  /** The value under `k`, or None where Python raises KeyError. */
  function Get<K(==), V>(s: seq<(K, V)>, k: K): (r: Option<V>)
    ensures r.None? <==> k !in Keys(s)
    ensures r.Some? ==> (k, r.value) in s
  {
    if |s| == 0 then None
    else
      assert Keys(s) == [s[0].0] + Keys(s[1..]);
      if s[0].0 == k then Some(s[0].1) else Get(s[1..], k)
  }

  /** In a dict, each entry is what its own key looks up. */
  lemma {:induction false} GetAt<K, V>(s: seq<(K, V)>, i: nat)
    requires DistinctKeys(s)
    requires i < |s|
    ensures Get(s, s[i].0) == Some(s[i].1)
  {
    if i > 0 {
      assert s[0].0 != s[i].0;
      GetAt(s[1..], i - 1);
    }
  }

  /** The number of list elements held under all keys together. */
  function TotalLength<K, V>(s: seq<(K, seq<V>)>): nat
  {
    if |s| == 0 then 0 else |s[0].1| + TotalLength(s[1..])
  }

  /** No key holds the empty list. */
  predicate NoEmptyLists<K, V>(s: seq<(K, seq<V>)>) {
    forall i :: 0 <= i < |s| ==> |s[i].1| > 0
  }

  /** Appends `v` to the list under `k`, first creating an empty list at
      the end of the dict when `k` is new. */
  function SetDefaultAppend<K(==), V>(s: seq<(K, seq<V>)>, k: K, v: V): (r: seq<(K, seq<V>)>)
    ensures Keys(r) == if k in Keys(s) then Keys(s) else Keys(s) + [k]
    ensures DistinctKeys(s) ==> DistinctKeys(r)
  {
    if |s| == 0 then [(k, [v])]
    else
      assert Keys(s) == [s[0].0] + Keys(s[1..]);
      if s[0].0 == k then
        var r := [(k, s[0].1 + [v])] + s[1..];
        assert Keys(r) == Keys(s);
        r
      else
        var rest := SetDefaultAppend(s[1..], k, v);
        assert Keys([s[0]] + rest) == [s[0].0] + Keys(rest);
        [s[0]] + rest
  }

  /** After the append, `k` holds its old list (or the empty one) plus `v`,
      and every other key holds what it held before. */
  lemma {:induction false} GetSetDefaultAppend<K, V>(s: seq<(K, seq<V>)>, k: K, v: V, k': K)
    ensures Get(SetDefaultAppend(s, k, v), k) == Some(Get(s, k).GetOr([]) + [v])
    ensures k' != k ==> Get(SetDefaultAppend(s, k, v), k') == Get(s, k')
  {
    if |s| > 0 {
      var r := SetDefaultAppend(s, k, v);
      if s[0].0 == k {
        assert r[1..] == s[1..];
      } else {
        GetSetDefaultAppend(s[1..], k, v, k');
        assert r[1..] == SetDefaultAppend(s[1..], k, v);
      }
    } else {
      assert SetDefaultAppend(s, k, v) == [(k, [v])];
      assert Get(s, k) == None;
      assert [] + [v] == [v];
    }
  }

  /** The append adds exactly one element and never leaves a list empty. */
  lemma {:induction false} SetDefaultAppendSizes<K, V>(s: seq<(K, seq<V>)>, k: K, v: V)
    ensures TotalLength(SetDefaultAppend(s, k, v)) == TotalLength(s) + 1
    ensures NoEmptyLists(s) ==> NoEmptyLists(SetDefaultAppend(s, k, v))
  {
    if |s| > 0 {
      var r := SetDefaultAppend(s, k, v);
      if s[0].0 == k {
        assert r[1..] == s[1..];
      } else {
        SetDefaultAppendSizes(s[1..], k, v);
        assert r[1..] == SetDefaultAppend(s[1..], k, v);
      }
    }
  }
}

=== FILE: dispatch.dfy ===
/** `parse_cards` (main.py:129-195): what happens when a card message
    reaches the bot.  The message names a player and a card by id; after
    both are looked up, the game's stage decides which engine operation
    is called, and a vote that completes the round also runs the
    end-of-round report (main.py:198-225). */
module Dispatch {
  import opened Wrappers
  import opened Dict
  import opened Dixit
  import opened CardMessage
  import opened RoundReport
  import opened Visibility

  /** The replies that end `parse_cards` early without touching the game. */
  datatype Rejection =
    | NotPlaying    // no single player has the message's user id (141-144)
    | UnknownCard   // no single card has the message's card id (148-150)
    | MissingClue   // stage 1 without a clue line (155-157)

  /** Ways `parse_cards` ends with an uncaught exception. */
  datatype Fault =
      /** No single player has the card on the table, or some player has no
          table entry: the bare `except` (186-187) neither returns nor
          binds `sender`, so `voting_turns` is never reached. */
    | NoUniqueOwner
      /** An engine operation raised. */
    | EngineRaised(error: EngineError)
      /** The storyteller has no table entry when the report is built (202). */
    | StorytellerCardMissing

  datatype Status = Completed | Rejected(reason: Rejection) | Crashed(fault: Fault)

  /** Messages the bot posts to the group as the game advances. */
  datatype Notice =
    | CluePosted(clue: string)                // 164-167
    | VotingOpened(clue: string)              // 177-180
    | CorrectAnswer(card: Card)               // 204-205
    | ScoresPosted(text: string)              // 207-208, 221
    | VotesPosted(lines: seq<VoteLine>)       // 210-219, 222
    | StorytellerPrompt(storyteller: Player)  // 225, 97-99

  /** The effect of handling one message: how it ended, the engine calls
      made in order, the game afterwards and the notices posted. */
  datatype Step = Step(status: Status, calls: seq<Call>, game: Game, notices: seq<Notice>)

  /** The game changes only through the recorded engine calls: replaying
      them from the old game gives the new one; when the last call raised,
      the game is the one that call was made on. */
  predicate Accounts(e: Engine, g: Game, s: Step) {
    if s.status.Crashed? && s.status.fault.EngineRaised? then
      && |s.calls| > 0
      && Replay(e, g, s.calls[..|s.calls| - 1]) == Success(s.game)
      && Invoke(e, s.game, s.calls[|s.calls| - 1]) == Failure(s.status.fault.error)
    else
      Replay(e, g, s.calls) == Success(s.game)
  }

  /** The engine call each stage makes first. */
  predicate FitsStage(c: Call, stage: Stage) {
    match c
    case StorytellerTurnCall(_, _) => stage == StorytellerTurn
    case PlayerTurnsCall(_, _) => stage == PlayersTurn
    case VotingTurnsCall(_, _) => stage == Voting
    case _ => false
  }

  function Reject(g: Game, why: Rejection): Step {
    Step(Rejected(why), [], g, [])
  }

  /** An engine call that raised, made on `g` as the last of `calls`. */
  function Raised(g: Game, calls: seq<Call>, err: EngineError, notices: seq<Notice>): Step {
    Step(Crashed(EngineRaised(err)), calls, g, notices)
  }

  /** The `assert` of line 153: in stage 1 the message must come from the
      storyteller, once the player and the card are known. */
  predicate StorytellerAsserted(g: Game, t: string)
    requires Accepted(t)
  {
    var m := Message(t);
    var players := PlayersWithId(g.players, m.userId);
    (g.stage == StorytellerTurn && |players| == 1 && |CardsWithId(g.cards, m.cardId)| == 1)
      ==> players[0] == g.storyteller
  }

  /** Stage 1 (152-167). */
  function StorytellerStep(e: Engine, g: Game, card: Card, clue: seq<string>): (s: Step)
    ensures Accounts(e, g, s)
    ensures |clue| != 1 ==> s == Reject(g, MissingClue)
    ensures |clue| == 1 ==> s.calls == [StorytellerTurnCall(card, clue[0])]
    ensures |clue| == 1 ==>
              (s.status.Completed? <==> Invoke(e, g, StorytellerTurnCall(card, clue[0])).Success?)
    ensures s.status.Completed? ==> s.notices == [CluePosted(s.game.clue)]
    ensures !s.status.Completed? ==> s.notices == []
  {
    if |clue| != 1 then Reject(g, MissingClue)
    else
      var c := StorytellerTurnCall(card, clue[0]);
      match Invoke(e, g, c)
      case Failure(err) =>
        assert [c][..0] == [];
        Raised(g, [c], err, [])
      case Success(g1) => Step(Completed, [c], g1, [CluePosted(g1.clue)])
  }

  /** Stage 2 (169-180). */
  function PlayerStep(e: Engine, g: Game, player: Player, card: Card): (s: Step)
    ensures Accounts(e, g, s)
    ensures s.calls == [PlayerTurnsCall(player, card)]
    ensures s.status.Completed? <==> Invoke(e, g, PlayerTurnsCall(player, card)).Success?
    ensures s.status.Completed? ==>
              (VotingOpened(s.game.clue) in s.notices <==> s.game.stage == Voting)
    ensures s.notices == if s.status.Completed? && s.game.stage == Voting
                         then [VotingOpened(s.game.clue)] else []
  {
    var c := PlayerTurnsCall(player, card);
    match Invoke(e, g, c)
    case Failure(err) =>
      assert [c][..0] == [];
      Raised(g, [c], err, [])
    case Success(g1) =>
      Step(Completed, [c], g1, if g1.stage == Voting then [VotingOpened(g1.clue)] else [])
  }

  /** The one player whose table card is `card` (184-185), or None where
      the lookup or the unpacking raises. */
  function UniqueOwner(g: Game, card: Card): Option<Player>
  {
    match Owners(g.players, g.table, card)
    case None => None
    case Some(owners) => Single(owners)
  }

  /** The game `voting_turns` returns for this vote, when it is reached and
      does not raise. */
  function VoteRecorded(e: Engine, g: Game, player: Player, card: Card): Option<Game>
  {
    match UniqueOwner(g, card)
    case None => None
    case Some(sender) =>
      match e.votingTurns(g, player, sender)
      case Failure(_) => None
      case Success(g1) => Some(g1)
  }

  /** The end of a round once the last vote is in: the engine's
      `end_of_round`, the report (198-222), the engine's `new_round` and the
      prompt to the next storyteller (224-225). */
  function CloseRound(e: Engine, g: Game, vote: Call, g1: Game): (s: Step)
    requires Invoke(e, g, vote) == Success(g1)
    ensures Accounts(e, g, s)
    ensures 2 <= |s.calls| <= 3 && s.calls[0] == vote && s.calls[1] == EndOfRoundCall
    ensures Invoke(e, g1, EndOfRoundCall).Failure? ==>
              |s.calls| == 2 && s.notices == []
              && s.status == Crashed(EngineRaised(Invoke(e, g1, EndOfRoundCall).error))
    ensures Invoke(e, g1, EndOfRoundCall).Success? ==>
              var g2 := Invoke(e, g1, EndOfRoundCall).value;
              && (s.status == Crashed(StorytellerCardMissing) <==> Get(g2.table, g2.storyteller).None?)
              && (Get(g2.table, g2.storyteller).None? ==> |s.calls| == 2 && s.notices == [])
              && (Get(g2.table, g2.storyteller).Some? ==>
                    && |s.calls| == 3 && s.calls[2] == NewRoundCall
                    && |s.notices| >= 3
                    && s.notices[..3] == [CorrectAnswer(Get(g2.table, g2.storyteller).value),
                                          ScoresPosted(ScoreBoard(g2.score)),
                                          VotesPosted(VoteList(g2.votes))]
                    && (s.status.Completed? <==> Invoke(e, g2, NewRoundCall).Success?)
                    && (Invoke(e, g2, NewRoundCall).Failure? ==> |s.notices| == 3))
    ensures s.status.Completed? ==>
              |s.calls| == 3 && s.calls[2] == NewRoundCall
              && |s.notices| == 4 && s.notices[3] == StorytellerPrompt(s.game.storyteller)
  {
    assert Replay(e, g, [vote]) == Success(g1);
    ReplaySnoc(e, g, [vote], EndOfRoundCall, g1);
    var calls := [vote, EndOfRoundCall];
    assert [vote] + [EndOfRoundCall] == calls;
    match Invoke(e, g1, EndOfRoundCall)
    case Failure(err) =>
      assert calls[..1] == [vote];
      Raised(g1, calls, err, [])
    case Success(g2) =>
      match Get(g2.table, g2.storyteller)
      case None => Step(Crashed(StorytellerCardMissing), calls, g2, [])
      case Some(answer) =>
        var report := [CorrectAnswer(answer), ScoresPosted(ScoreBoard(g2.score)),
                       VotesPosted(VoteList(g2.votes))];
        ReplaySnoc(e, g, calls, NewRoundCall, g2);
        assert calls + [NewRoundCall] == [vote, EndOfRoundCall, NewRoundCall];
        assert [vote, EndOfRoundCall, NewRoundCall][..2] == calls;
        match Invoke(e, g2, NewRoundCall)
        case Failure(err) => Raised(g2, calls + [NewRoundCall], err, report)
        case Success(g3) =>
          Step(Completed, calls + [NewRoundCall], g3, report + [StorytellerPrompt(g3.storyteller)])
  }

  /** Stage 3 (182-195). */
  function VoteStep(e: Engine, g: Game, player: Player, card: Card): (s: Step)
    ensures Accounts(e, g, s)
    ensures UniqueOwner(g, card).None? ==> s == Step(Crashed(NoUniqueOwner), [], g, [])
    ensures UniqueOwner(g, card).Some? ==>
              |s.calls| > 0 && s.calls[0] == VotingTurnsCall(player, UniqueOwner(g, card).value)
    ensures |s.calls| <= 3
    ensures VoteRecorded(e, g, player, card).Some? && EndOfRoundCall !in s.calls ==>
              s.status.Completed? && |s.calls| == 1
    ensures EndOfRoundCall !in s.calls ==> s.notices == []
    ensures EndOfRoundCall in s.calls ==>
              && VoteRecorded(e, g, player, card).Some?
              && Invoke(e, g, s.calls[0]) == Success(VoteRecorded(e, g, player, card).value)
              && s == CloseRound(e, g, s.calls[0], VoteRecorded(e, g, player, card).value)
    ensures EndOfRoundCall in s.calls <==>
              var after := VoteRecorded(e, g, player, card);
              after.Some? && |after.value.votes| == |after.value.players| - 1
  {
    match UniqueOwner(g, card)
    case None => Step(Crashed(NoUniqueOwner), [], g, [])
    case Some(sender) =>
      var c := VotingTurnsCall(player, sender);
      match Invoke(e, g, c)
      case Failure(err) =>
        assert [c][..0] == [];
        Raised(g, [c], err, [])
      case Success(g1) =>
        if |g1.votes| == |g1.players| - 1 then CloseRound(e, g, c, g1)
        else Step(Completed, [c], g1, [])
  }

  /** `parse_cards` on a message the filter let through. */
  function HandleCardMessage(e: Engine, g: Game, text: string): (s: Step)
    requires Accepted(text)
    requires StorytellerAsserted(g, text)
    ensures Accounts(e, g, s)
    ensures s.calls == [] ==> s.game == g
    ensures |PlayersWithId(g.players, Message(text).userId)| != 1 ==> s == Reject(g, NotPlaying)
    ensures (|PlayersWithId(g.players, Message(text).userId)| == 1
             && |CardsWithId(g.cards, Message(text).cardId)| != 1) ==> s == Reject(g, UnknownCard)
    ensures s.calls != [] ==>
              && |PlayersWithId(g.players, Message(text).userId)| == 1
              && |CardsWithId(g.cards, Message(text).cardId)| == 1
              && FitsStage(s.calls[0], g.stage)
    ensures g.stage == StorytellerTurn ==>
              (s.calls != [] <==>
                 && |PlayersWithId(g.players, Message(text).userId)| == 1
                 && |CardsWithId(g.cards, Message(text).cardId)| == 1
                 && |Message(text).clue| == 1)
    ensures g.stage == StorytellerTurn && s.calls != [] ==>
              && PlayersWithId(g.players, Message(text).userId)[0] == g.storyteller
              && s.calls == [StorytellerTurnCall(CardsWithId(g.cards, Message(text).cardId)[0],
                                                 Message(text).clue[0])]
              && (s.status.Completed? <==> Invoke(e, g, s.calls[0]).Success?)
    ensures g.stage == Lobby ==> s.calls == [] && s.game == g
    ensures g.stage == Lobby && Resolved(g, text).Some? ==> s == Step(Completed, [], g, [])
    ensures g.stage == StorytellerTurn && Resolved(g, text).Some? && |Message(text).clue| != 1 ==>
              s == Reject(g, MissingClue)
    ensures g.stage == PlayersTurn && Resolved(g, text).Some? ==>
              var (player, card) := Resolved(g, text).value;
              && s.calls == [PlayerTurnsCall(player, card)]
              && (s.status.Completed? <==> Invoke(e, g, PlayerTurnsCall(player, card)).Success?)
    ensures g.stage == Voting && Resolved(g, text).Some? ==>
              var (player, card) := Resolved(g, text).value;
              && (UniqueOwner(g, card).None? ==> s == Step(Crashed(NoUniqueOwner), [], g, []))
              && (UniqueOwner(g, card).Some? ==>
                    |s.calls| > 0 && s.calls[0] == VotingTurnsCall(player, UniqueOwner(g, card).value))
    ensures EndOfRoundCall in s.calls ==> g.stage == Voting
  {
    var m := Message(text);
    match Single(PlayersWithId(g.players, m.userId))
    case None => Reject(g, NotPlaying)
    case Some(player) =>
      match Single(CardsWithId(g.cards, m.cardId))
      case None => Reject(g, UnknownCard)
      case Some(card) =>
        if g.stage == StorytellerTurn then StorytellerStep(e, g, card, m.clue)
        else if g.stage == PlayersTurn then PlayerStep(e, g, player, card)
        else if g.stage == Voting then VoteStep(e, g, player, card)
        else Step(Completed, [], g, [])
  }

  /** The player and card a message resolves to, when both are unique. */
  function Resolved(g: Game, text: string): Option<(Player, Card)>
    requires Accepted(text)
  {
    var m := Message(text);
    match (Single(PlayersWithId(g.players, m.userId)), Single(CardsWithId(g.cards, m.cardId)))
    case (Some(player), Some(card)) => Some((player, card))
    case _ => None
  }

  /** A vote whose card has no single owner ends in the uncaught exception of
      the bare `except`, with no engine call and the game unchanged. */
  lemma UnownedCardCrashes(e: Engine, g: Game, text: string)
    requires Accepted(text) && StorytellerAsserted(g, text)
    requires g.stage == Voting
    requires Resolved(g, text).Some? && UniqueOwner(g, Resolved(g, text).value.1).None?
    ensures HandleCardMessage(e, g, text) == Step(Crashed(NoUniqueOwner), [], g, [])
  {
  }

  /** In stage 3 the round ends exactly when, after the vote is recorded,
      the number of votes is one less than the number of players. */
  lemma RoundEndsWhenAllVoted(e: Engine, g: Game, text: string)
    requires Accepted(text) && StorytellerAsserted(g, text)
    requires g.stage == Voting
    requires Resolved(g, text).Some?
    ensures var (player, card) := Resolved(g, text).value;
            var after := VoteRecorded(e, g, player, card);
            (EndOfRoundCall in HandleCardMessage(e, g, text).calls)
              <==> after.Some? && |after.value.votes| == |after.value.players| - 1
  {
  }

  /** What the front-end relies on from `voting_turns`: a recorded vote adds
      one entry to `votes` and leaves the players alone. */
  ghost predicate RecordsOneVote(e: Engine) {
    forall g: Game, voter: Player, vote: Player
      {:trigger e.votingTurns(g, voter, vote)} ::
      e.votingTurns(g, voter, vote).Success? ==>
        && |e.votingTurns(g, voter, vote).value.votes| == |g.votes| + 1
        && e.votingTurns(g, voter, vote).value.players == g.players
  }

  /** With such an engine, the round ends on the vote that brings the
      count to one per non-storyteller player, and on no other. */
  lemma RoundEndsOnLastVote(e: Engine, g: Game, text: string)
    requires RecordsOneVote(e)
    requires Accepted(text) && StorytellerAsserted(g, text)
    requires g.stage == Voting
    requires Resolved(g, text).Some?
    ensures var (player, card) := Resolved(g, text).value;
            (EndOfRoundCall in HandleCardMessage(e, g, text).calls)
              <==> VoteRecorded(e, g, player, card).Some? && |g.votes| + 1 == |g.players| - 1
  {
    RoundEndsWhenAllVoted(e, g, text);
  }

  /** In stage 1 the inline menu and the assertion agree: a found player's
      card message passes the assertion exactly when their menu, whatever
      their hand and query, carries no wait text. */
  lemma MenuAgreesWithAssert(g: Game, text: string, hand: seq<Card>, query: string)
    requires Accepted(text)
    requires g.stage == StorytellerTurn
    requires |PlayersWithId(g.players, Message(text).userId)| == 1
    requires |CardsWithId(g.cards, Message(text).cardId)| == 1
    ensures StorytellerAsserted(g, text)
            <==> !OfferFor(g, PlayersWithId(g.players, Message(text).userId)[0], hand, query).impatient
  {
  }

  /** The messages a card message makes the bot post: in stage 1 the clue,
      exactly when `storyteller_turn` returns; in stage 2 only the voting
      announcement, when the game has reached stage 3; in stage 3 nothing
      unless the round ends; in stage 0 nothing. */
  lemma HandlerNotices(e: Engine, g: Game, text: string)
    requires Accepted(text) && StorytellerAsserted(g, text)
    ensures var s := HandleCardMessage(e, g, text);
            && (g.stage == StorytellerTurn ==>
                  s.notices == if s.status.Completed? then [CluePosted(s.game.clue)] else [])
            && (g.stage == PlayersTurn ==>
                  s.notices == if s.status.Completed? && s.game.stage == Voting
                               then [VotingOpened(s.game.clue)] else [])
            && (g.stage == Lobby ==> s.notices == [])
            && (g.stage == Voting && EndOfRoundCall !in s.calls ==> s.notices == [])
  {
  }
}

=== FILE: game.dfy ===
/** What the Telegram front-end sees of a Dixit game: the stage, the
    players and their ids, the storyteller, the cards, the table, the votes,
    the clue and the score board.  The game engine itself (`DixitGame`) is
    not part of this model; its operations are the five function values of
    an `Engine`, about which nothing is assumed unless a lemma says so. */
module Dixit {
  import opened Wrappers
  import opened Seqs
  import opened Dict

  /** The engine's stage counter. */
  type Stage = s: int | 0 <= s <= 3
  const Lobby: Stage := 0
  const StorytellerTurn: Stage := 1
  const PlayersTurn: Stage := 2
  const Voting: Stage := 3

  datatype Player = Player(id: int, name: string)

  datatype Card = Card(id: int, url: string)

  /** The fields of `DixitGame` that the front-end reads.  The dicts
      `table` (player to the card they played), `votes` (voter to the player
      they voted for) and `score` (player to total and last delta) are
      sequences of pairs in insertion order. */
  datatype Game = Game(
    stage: Stage,
    players: seq<Player>,
    storyteller: Player,
    cards: seq<Card>,
    table: seq<(Player, Card)>,
    votes: seq<(Player, Player)>,
    clue: string,
    score: seq<(Player, (int, int))>)

  /** The name of the exception an engine operation raises. */
  type EngineError = string

  /** The engine operations the front-end calls: `storyteller_turn`,
      `player_turns`, `voting_turns`, `end_of_round` and `new_round`.  Each
      either returns the updated game or raises. */
  datatype Engine = Engine(
    storytellerTurn: (Game, Card, string) -> Result<Game, EngineError>,
    playerTurns: (Game, Player, Card) -> Result<Game, EngineError>,
    votingTurns: (Game, Player, Player) -> Result<Game, EngineError>,
    endOfRound: Game -> Result<Game, EngineError>,
    newRound: Game -> Result<Game, EngineError>)

  /** One call into the engine, with its arguments. */
  datatype Call =
    | StorytellerTurnCall(card: Card, clue: string)
    | PlayerTurnsCall(player: Player, card: Card)
    | VotingTurnsCall(voter: Player, vote: Player)
    | EndOfRoundCall
    | NewRoundCall

  function Invoke(e: Engine, g: Game, c: Call): Result<Game, EngineError>
  {
    match c
    case StorytellerTurnCall(card, clue) => e.storytellerTurn(g, card, clue)
    case PlayerTurnsCall(player, card) => e.playerTurns(g, player, card)
    case VotingTurnsCall(voter, vote) => e.votingTurns(g, voter, vote)
    case EndOfRoundCall => e.endOfRound(g)
    case NewRoundCall => e.newRound(g)
  }

  /** The game after making `calls` in order, or the first exception. */
  function Replay(e: Engine, g: Game, calls: seq<Call>): Result<Game, EngineError>
    decreases |calls|
  {
    if |calls| == 0 then Success(g)
    else match Invoke(e, g, calls[0])
      case Failure(err) => Failure(err)
      case Success(g1) => Replay(e, g1, calls[1..])
  }

  /** Replaying one more call continues from where the replay stopped. */
  lemma {:induction false} ReplaySnoc(e: Engine, g: Game, calls: seq<Call>, c: Call, g1: Game)
    requires Replay(e, g, calls) == Success(g1)
    ensures Replay(e, g, calls + [c]) == Invoke(e, g1, c)
    decreases |calls|
  {
    if |calls| == 0 {
      assert calls + [c] == [c];
    } else {
      assert (calls + [c])[1..] == calls[1..] + [c];
      match Invoke(e, g, calls[0])
      case Success(g0) => ReplaySnoc(e, g0, calls[1..], c, g1);
    }
  }

  /** The players carrying `id`, in list order. */
  function PlayersWithId(players: seq<Player>, id: int): (r: seq<Player>)
    ensures forall p {:trigger multiset(r)[p]} ::
              multiset(r)[p] == if p.id == id then multiset(players)[p] else 0
  {
    Filter(players, (p: Player) => p.id == id)
  }

  /** The cards carrying `id`, in list order. */
  function CardsWithId(cards: seq<Card>, id: int): (r: seq<Card>)
    ensures forall c {:trigger multiset(r)[c]} ::
              multiset(r)[c] == if c.id == id then multiset(cards)[c] else 0
  {
    Filter(cards, (c: Card) => c.id == id)
  }

  /** Unpacking a one-element list: the single element, or None where Python
      raises ValueError. */
  function Single<T>(xs: seq<T>): (r: Option<T>)
    ensures r.Some? <==> |xs| == 1
    ensures r.Some? ==> xs == [r.value]
  {
    if |xs| == 1 then Some(xs[0]) else None
  }

  /** The players whose table card is `card`, or None where a player has
      no table entry and the lookup raises KeyError. */
  function Owners(players: seq<Player>, table: seq<(Player, Card)>, card: Card): (r: Option<seq<Player>>)
    ensures r.None? <==> exists i :: 0 <= i < |players| && players[i] !in Keys(table)
    ensures r.Some? ==> forall p {:trigger multiset(r.value)[p]} ::
              multiset(r.value)[p] == if Get(table, p) == Some(card) then multiset(players)[p] else 0
  {
    if forall i :: 0 <= i < |players| ==> players[i] in Keys(table) then
      Some(Filter(players, (p: Player) => Get(table, p) == Some(card)))
    else None
  }
}

=== FILE: round_report.dfy ===
/** The end-of-round messages of `end_of_round` (main.py:198-222): one
    score line per player, and the votes grouped by the player voted for. */
module RoundReport {
  import opened Wrappers
  import opened Seqs
  import opened Decimal
  import opened Dict
  import opened Dixit

  // ---------------------------------------------------------------------
  // Score lines (main.py:207-208)
  // ---------------------------------------------------------------------

  /** A player's score line: the name, a colon, two spaces, the total and a
      space, then the round's points in parentheses with a plus sign unless
      they are zero. */
  function ScoreLine(name: string, total: int, delta: int): (line: string)
    ensures |line| > 0
    ensures line[|line| - 1] == if delta == 0 then ' ' else ')'
  {
    name + ":  " + IntToString(total) + " " + DeltaSuffix(delta)
  }

  /** The text after the total: empty for a zero delta, `(+delta)` else. */
  function DeltaSuffix(delta: int): string
  {
    if delta != 0 then "(+" + IntToString(delta) + ")" else ""
  }

  /** Reads a delta back from the text after the total. */
  function ReadDelta(suffix: string): Option<int>
  {
    if suffix == "" then Some(0)
    else if |suffix| >= 3 && suffix[..2] == "(+" && suffix[|suffix| - 1] == ')' then
      match ParseInt(suffix[2..|suffix| - 1])
      case None => None
      case Some(delta) => if delta != 0 then Some(delta) else None
    else None
  }

  /** Reads the total and the round's delta back from a score line, given
      the player's name; a line without the `(+...)` suffix has delta 0. */
  function ReadScoreLine(name: string, line: string): Option<(int, int)>
  {
    var prefix := name + ":  ";
    if |line| < |prefix| || line[..|prefix|] != prefix then None
    else
      var rest := line[|prefix|..];
      match IndexOf(rest, ' ')
      case None => None
      case Some(i) =>
        match (ParseInt(rest[..i]), ReadDelta(rest[i + 1..]))
        case (Some(total), Some(delta)) => Some((total, delta))
        case _ => None
  }

  lemma ReadDeltaSuffix(delta: int)
    ensures ReadDelta(DeltaSuffix(delta)) == Some(delta)
  {
    if delta != 0 {
      var suffix := DeltaSuffix(delta);
      assert suffix[..2] == "(+";
      assert suffix[2..|suffix| - 1] == IntToString(delta);
      ParseIntToString(delta);
    }
  }

  /** A score line shows exactly its total and delta: the suffix is there
      precisely when the delta is non-zero, so the two cases cannot be
      confused. */
  lemma ReadScoreLineRoundTrip(name: string, total: int, delta: int)
    ensures ReadScoreLine(name, ScoreLine(name, total, delta)) == Some((total, delta))
  {
    var prefix := name + ":  ";
    var t := IntToString(total);
    var suffix := DeltaSuffix(delta);
    var line := ScoreLine(name, total, delta);
    assert line == prefix + (t + " " + suffix);
    assert line[..|prefix|] == prefix;
    var rest := line[|prefix|..];
    assert rest == t + " " + suffix;
    assert ' ' !in t;
    assert rest[..|t|] == t;
    IndexOfIs(rest, ' ', |t|);
    ParseIntToString(total);
    assert rest[|t| + 1..] == suffix;
    ReadDeltaSuffix(delta);
  }

  lemma ScoreLineIsOneLine(name: string, total: int, delta: int)
    requires '\n' !in name
    ensures '\n' !in ScoreLine(name, total, delta)
  {
    assert '\n' !in IntToString(total);
    assert '\n' !in IntToString(delta);
  }

  /** One line per score entry, in order. */
  function ScoreLines(score: seq<(Player, (int, int))>): (lines: seq<string>)
    ensures |lines| == |score|
    ensures forall i :: 0 <= i < |score| ==>
              lines[i] == ScoreLine(score[i].0.name, score[i].1.0, score[i].1.1)
  {
    seq(|score|, i requires 0 <= i < |score| =>
          ScoreLine(score[i].0.name, score[i].1.0, score[i].1.1))
  }

  /** The `results` message: the score lines joined with newlines. */
  function ScoreBoard(score: seq<(Player, (int, int))>): string
  {
    Join(ScoreLines(score), '\n')
  }

  /** The score message has one line per player, and each line gives back
      that player's total and delta (player names are single lines). */
  lemma ScoreBoardReadBack(score: seq<(Player, (int, int))>)
    requires |score| > 0
    requires forall i :: 0 <= i < |score| ==> '\n' !in score[i].0.name
    ensures |Split(ScoreBoard(score), '\n')| == |score|
    ensures forall i :: 0 <= i < |score| ==>
              ReadScoreLine(score[i].0.name, Split(ScoreBoard(score), '\n')[i]) == Some(score[i].1)
  {
    var lines := ScoreLines(score);
    forall i | 0 <= i < |lines|
      ensures '\n' !in lines[i]
    {
      ScoreLineIsOneLine(score[i].0.name, score[i].1.0, score[i].1.1);
    }
    SplitJoin(lines, '\n');
    forall i | 0 <= i < |score|
      ensures ReadScoreLine(score[i].0.name, lines[i]) == Some(score[i].1)
    {
      ReadScoreLineRoundTrip(score[i].0.name, score[i].1.0, score[i].1.1);
    }
  }

  // ---------------------------------------------------------------------
  // Grouping the votes (main.py:211-213)
  // ---------------------------------------------------------------------

  /** The voters who voted for `accused`, in vote order: the reference
      meaning of a group. */
  function VotersOf(votes: seq<(Player, Player)>, accused: Player): (r: seq<Player>)
    ensures forall v :: v in r <==> (v, accused) in votes
  {
    if |votes| == 0 then []
    else
      var last := votes[|votes| - 1];
      assert votes == votes[..|votes| - 1] + [last];
      VotersOf(votes[..|votes| - 1], accused) + (if last.1 == accused then [last.0] else [])
  }

  /** The votes grouped by the player voted for: each vote, in order, appends
      its voter to that player's group, opening the group at the end when it
      is the player's first vote. */
  function GroupVotes(votes: seq<(Player, Player)>): (groups: seq<(Player, seq<Player>)>)
    ensures DistinctKeys(groups)
    ensures NoEmptyLists(groups)
    ensures TotalLength(groups) == |votes|
  {
    if |votes| == 0 then []
    else
      var before := GroupVotes(votes[..|votes| - 1]);
      var last := votes[|votes| - 1];
      SetDefaultAppendSizes(before, last.1, last.0);
      SetDefaultAppend(before, last.1, last.0)
  }

  /** The group keys are the voted-for players, each once, in order of
      first appearance. */
  lemma {:induction false} GroupKeys(votes: seq<(Player, Player)>)
    ensures Keys(GroupVotes(votes)) == Dedup(Values(votes))
  {
    if |votes| > 0 {
      var p := votes[..|votes| - 1];
      var a := votes[|votes| - 1].1;
      GroupKeys(p);
      assert Values(votes)[..|votes| - 1] == Values(p);
      assert Values(votes)[|votes| - 1] == a;
    }
  }

  /** The group under `k` holds exactly the voters for `k`, in vote order;
      players nobody voted for have no group. */
  lemma {:induction false} GroupContents(votes: seq<(Player, Player)>, k: Player)
    ensures Get(GroupVotes(votes), k)
            == if k in Values(votes) then Some(VotersOf(votes, k)) else None
  {
    if |votes| > 0 {
      var p := votes[..|votes| - 1];
      var v := votes[|votes| - 1].0;
      var a := votes[|votes| - 1].1;
      GroupContents(p, k);
      var before := GroupVotes(p);
      assert GroupVotes(votes) == SetDefaultAppend(before, a, v);
      GetSetDefaultAppend(before, a, v, k);
      ValuesOfLast(votes);
      assert VotersOf(votes, k) == VotersOf(p, k) + (if a == k then [v] else []);
      if k == a {
        assert k in Values(votes);
        if k !in Values(p) {
          NoVotersOf(p, k);
          assert Get(before, k) == None;
          assert VotersOf(votes, k) == [] + [v];
        } else {
          assert Get(before, k) == Some(VotersOf(p, k));
        }
      } else {
        assert k in Values(votes) <==> k in Values(p);
        assert VotersOf(votes, k) == VotersOf(p, k);
        assert Get(GroupVotes(votes), k) == Get(before, k);
      }
    }
  }

  /** A player nobody voted for has no voters. */
  lemma {:induction false} NoVotersOf(votes: seq<(Player, Player)>, k: Player)
    requires k !in Values(votes)
    ensures VotersOf(votes, k) == []
  {
    if |votes| > 0 {
      var p := votes[..|votes| - 1];
      ValuesOfLast(votes);
      NoVotersOf(p, k);
    }
  }

  /** Both halves of the grouping's meaning. */
  lemma GroupVotesMeaning(votes: seq<(Player, Player)>)
    ensures Keys(GroupVotes(votes)) == Dedup(Values(votes))
    ensures forall k :: Get(GroupVotes(votes), k)
                        == if k in Values(votes) then Some(VotersOf(votes, k)) else None
  {
    GroupKeys(votes);
    forall k
      ensures Get(GroupVotes(votes), k)
              == if k in Values(votes) then Some(VotersOf(votes, k)) else None
    {
      GroupContents(votes, k);
    }
  }

  /** Every voter lands in exactly one group: the one keyed by the player
      they voted for (votes is a dict, so each voter votes once). */
  lemma VoterInExactlyOneGroup(votes: seq<(Player, Player)>, i: nat, j: nat)
    requires DistinctKeys(votes)
    requires i < |votes| && j < |GroupVotes(votes)|
    ensures votes[i].1 in Keys(GroupVotes(votes))
    ensures votes[i].0 in GroupVotes(votes)[j].1 <==> GroupVotes(votes)[j].0 == votes[i].1
  {
    var groups := GroupVotes(votes);
    GroupVotesMeaning(votes);
    assert Values(votes)[i] == votes[i].1;
    GetAt(groups, j);
    var k := groups[j].0;
    assert k in Keys(groups);
    assert groups[j].1 == VotersOf(votes, k);
    if (votes[i].0, k) in votes {
      var m :| 0 <= m < |votes| && votes[m] == (votes[i].0, k);
      assert m == i;
    }
    assert votes[i] == (votes[i].0, votes[i].1);
  }

  /** The group keys appear in the order their first vote was cast. */
  lemma GroupsInFirstVoteOrder(votes: seq<(Player, Player)>)
    ensures forall i, j :: 0 <= i < j < |GroupVotes(votes)| ==>
              && GroupVotes(votes)[i].0 in Values(votes)
              && GroupVotes(votes)[j].0 in Values(votes)
              && IndexOf(Values(votes), GroupVotes(votes)[i].0).value
                 < IndexOf(Values(votes), GroupVotes(votes)[j].0).value
  {
    GroupVotesMeaning(votes);
    DedupFirstAppearanceOrder(Values(votes));
    var ks := Keys(GroupVotes(votes));
    assert forall i :: 0 <= i < |ks| ==> ks[i] == GroupVotes(votes)[i].0;
  }

  // ---------------------------------------------------------------------
  // Laying the groups out as lines (main.py:214-219)
  // ---------------------------------------------------------------------

  /** `voter ⟶ voted` for the first voter of a group, a bare name for each
      further voter, and an empty line closing the group. */
  datatype VoteLine = Arrow(voter: Player, accused: Player) | Also(voter: Player) | Blank

  function AlsoLines(voters: seq<Player>): (lines: seq<VoteLine>)
    ensures |lines| == |voters|
    ensures forall i :: 0 <= i < |voters| ==> lines[i] == Also(voters[i])
  {
    seq(|voters|, i requires 0 <= i < |voters| => Also(voters[i]))
  }

  function GroupLines(accused: Player, voters: seq<Player>): seq<VoteLine>
    requires |voters| > 0
  {
    [Arrow(voters[0], accused)] + AlsoLines(voters[1..]) + [Blank]
  }

  /** `vote_list`, built group by group. */
  function VoteLines(groups: seq<(Player, seq<Player>)>): (lines: seq<VoteLine>)
    requires NoEmptyLists(groups)
    ensures |lines| == TotalLength(groups) + |groups|
  {
    if |groups| == 0 then []
    else GroupLines(groups[0].0, groups[0].1) + VoteLines(groups[1..])
  }

  /** How many lines at the front of `lines` are bare-name lines. */
  function LeadingAlso(lines: seq<VoteLine>): (n: nat)
    ensures n <= |lines|
    ensures forall i :: 0 <= i < n ==> lines[i].Also?
    ensures n < |lines| ==> !lines[n].Also?
  {
    if |lines| > 0 && lines[0].Also? then 1 + LeadingAlso(lines[1..]) else 0
  }

  function AlsoVoters(lines: seq<VoteLine>): (voters: seq<Player>)
    requires forall i :: 0 <= i < |lines| ==> lines[i].Also?
  {
    seq(|lines|, i requires 0 <= i < |lines| => lines[i].voter)
  }

  /** Reads the groups back from a vote list; None if the lines are not
      laid out group by group. */
  function Regroup(lines: seq<VoteLine>): Option<seq<(Player, seq<Player>)>>
    decreases |lines|
  {
    if |lines| == 0 then Some([])
    else if !lines[0].Arrow? then None
    else
      var n := LeadingAlso(lines[1..]);
      if 1 + n < |lines| && lines[1 + n] == Blank then
        match Regroup(lines[2 + n..])
        case None => None
        case Some(rest) =>
          Some([(lines[0].accused, [lines[0].voter] + AlsoVoters(lines[1..1 + n]))] + rest)
      else None
  }

  /** The bare-name lines of a group end where its names end. */
  lemma LeadingAlsoOf(voters: seq<Player>, more: seq<VoteLine>)
    ensures LeadingAlso(AlsoLines(voters) + [Blank] + more) == |voters|
  {
    var s := AlsoLines(voters) + [Blank] + more;
    var n := LeadingAlso(s);
    assert s[|voters|] == Blank;
    assert forall t :: 0 <= t < |voters| ==> s[t] == Also(voters[t]);
  }

  /** Reading one group's lines off the front of a vote list. */
  lemma RegroupGroupLines(k: Player, vs: seq<Player>, more: seq<VoteLine>)
    requires |vs| > 0
    requires Regroup(more).Some?
    ensures Regroup(GroupLines(k, vs) + more) == Some([(k, vs)] + Regroup(more).value)
  {
    var lines := GroupLines(k, vs) + more;
    assert lines == [Arrow(vs[0], k)] + (AlsoLines(vs[1..]) + [Blank] + more);
    assert lines[1..] == AlsoLines(vs[1..]) + [Blank] + more;
    LeadingAlsoOf(vs[1..], more);
    var n := |vs| - 1;
    assert lines[1 + n] == Blank;
    assert lines[2 + n..] == more;
    assert AlsoVoters(lines[1..1 + n]) == vs[1..];
    assert [vs[0]] + vs[1..] == vs;
  }

  /** The vote list determines the groups it was laid out from. */
  lemma {:induction false} RegroupVoteLines(groups: seq<(Player, seq<Player>)>)
    requires NoEmptyLists(groups)
    ensures Regroup(VoteLines(groups)) == Some(groups)
  {
    if |groups| > 0 {
      RegroupVoteLines(groups[1..]);
      RegroupGroupLines(groups[0].0, groups[0].1, VoteLines(groups[1..]));
      assert [(groups[0].0, groups[0].1)] + groups[1..] == groups;
    }
  }

  /** The vote list of a round: one arrow line per group, one line per
      further voter and one blank line per group, from which the grouping
      can be read back. */
  function VoteList(votes: seq<(Player, Player)>): (lines: seq<VoteLine>)
    ensures |lines| == |votes| + |GroupVotes(votes)|
    ensures Regroup(lines) == Some(GroupVotes(votes))
  {
    RegroupVoteLines(GroupVotes(votes));
    VoteLines(GroupVotes(votes))
  }

  /** One line of the `votes` message, with `show` standing for `str` of a
      player. */
  function RenderVoteLine(show: Player -> string, line: VoteLine): string
  {
    match line
    case Arrow(voter, accused) => show(voter) + " \U{27F6} " + show(accused)
    case Also(voter) => show(voter)
    case Blank => ""
  }

  /** The votes message: the rendered listing, one line per entry. */
  function VoteText(show: Player -> string, votes: seq<(Player, Player)>): string
  {
    var lines := VoteList(votes);
    Join(seq(|lines|, i requires 0 <= i < |lines| => RenderVoteLine(show, lines[i])), '\n')
  }

  /** When player names are single lines, the `votes` message has
      |votes| + |groups| lines. */
  lemma VoteTextLineCount(show: Player -> string, votes: seq<(Player, Player)>)
    requires |votes| > 0
    requires forall p :: '\n' !in show(p)
    ensures |Split(VoteText(show, votes), '\n')| == |votes| + |GroupVotes(votes)|
  {
    var lines := VoteList(votes);
    var rendered := seq(|lines|, i requires 0 <= i < |lines| => RenderVoteLine(show, lines[i]));
    forall i | 0 <= i < |rendered|
      ensures '\n' !in rendered[i]
    {
      match lines[i]
      case Arrow(voter, accused) =>
        assert '\n' !in show(voter) && '\n' !in show(accused);
      case Also(voter) =>
        assert '\n' !in show(voter);
      case Blank =>
    }
    SplitJoin(rendered, '\n');
  }
}

=== FILE: routing.dfy ===
/** How `parse_cards` (main.py:152-195) hands a found message to the step
    of the game's stage, and what a recorded vote leads to. */
module Routing {
  import opened Wrappers
  import opened Dixit
  import opened CardMessage
  import opened Dispatch

  /** Once the player and the card are found, the handler is the step of
      the current stage: stage 1 takes the message's clue lines, stage 2 the
      play and stage 3 the vote, with everything each step states. */
  lemma RoutesByStage(e: Engine, g: Game, text: string)
    requires Accepted(text) && StorytellerAsserted(g, text)
    requires Resolved(g, text).Some?
    ensures var (player, card) := Resolved(g, text).value;
            var s := HandleCardMessage(e, g, text);
            && (g.stage == StorytellerTurn ==> s == StorytellerStep(e, g, card, Message(text).clue))
            && (g.stage == PlayersTurn ==> s == PlayerStep(e, g, player, card))
            && (g.stage == Voting ==> s == VoteStep(e, g, player, card))
  {
  }

  /** A vote that `voting_turns` records returns normally unless it ends the
      round, having made that one call and posted nothing. */
  lemma RecordedVoteCompletes(e: Engine, g: Game, text: string)
    requires Accepted(text) && StorytellerAsserted(g, text)
    requires g.stage == Voting && Resolved(g, text).Some?
    requires VoteRecorded(e, g, Resolved(g, text).value.0, Resolved(g, text).value.1).Some?
    ensures var s := HandleCardMessage(e, g, text);
            EndOfRoundCall !in s.calls ==>
              s.status.Completed? && |s.calls| == 1 && s.notices == []
  {
    RoutesByStage(e, g, text);
  }
}

=== FILE: seqs.dfy ===
/** Sequence helpers for the Python built-ins the bot relies on: search,
    filtering, splitting at and joining with a separator, and the
    first-appearance order of dict keys. */
module Seqs {
  import opened Wrappers

  /** Index of the first occurrence of `x` in `s`, if any. */
  function IndexOf<T(==)>(s: seq<T>, x: T): (r: Option<nat>)
    ensures r.None? <==> x !in s
    ensures r.Some? ==> r.value < |s| && s[r.value] == x && x !in s[..r.value]
  {
    if |s| == 0 then None
    else if s[0] == x then Some(0)
    else match IndexOf(s[1..], x)
      case None => None
      case Some(i) =>
        assert s[..i + 1] == [s[0]] + s[1..][..i];
        Some(i + 1)
  }

  /** The first occurrence is the only index with `x` there and none before. */
  lemma IndexOfIs<T>(s: seq<T>, x: T, i: nat)
    requires i < |s| && s[i] == x && x !in s[..i]
    ensures IndexOf(s, x) == Some(i)
  {
    var j := IndexOf(s, x).value;
    PrefixMembers(s, i);
    PrefixMembers(s, j);
  }

  /** Every element before index `i` is in the prefix of length `i`. */
  lemma PrefixMembers<T>(s: seq<T>, i: nat)
    requires i <= |s|
    ensures forall j :: 0 <= j < i ==> s[j] in s[..i]
  {
    forall j | 0 <= j < i
      ensures s[j] in s[..i]
    {
      assert s[..i][j] == s[j];
    }
  }

  /** Looking past a prefix that does not hold `x`. */
  lemma IndexOfAfter<T>(a: seq<T>, b: seq<T>, x: T)
    requires x !in a && x in b
    ensures IndexOf(a + b, x) == Some(|a| + IndexOf(b, x).value)
  {
    var k := IndexOf(b, x).value;
    var s := a + b;
    assert s[|a| + k] == x;
    assert s[..|a| + k] == a + b[..k];
    IndexOfIs(s, x, |a| + k);
  }

  /** A prefix that holds `x` decides where `x` first occurs. */
  lemma IndexOfWithin<T>(a: seq<T>, b: seq<T>, x: T)
    requires x in a
    ensures IndexOf(a + b, x) == IndexOf(a, x)
  {
    var k := IndexOf(a, x).value;
    assert (a + b)[..k] == a[..k];
    IndexOfIs(a + b, x, k);
  }

  /** The elements of `s` that satisfy `f`, in order (a list comprehension
      with an `if` clause). */
  function Filter<T(!new)>(s: seq<T>, f: T -> bool): (r: seq<T>)
    ensures |r| <= |s|
    ensures forall x {:trigger multiset(r)[x]} ::
              multiset(r)[x] == if f(x) then multiset(s)[x] else 0
  {
    if |s| == 0 then []
    else
      assert s == [s[0]] + s[1..];
      (if f(s[0]) then [s[0]] else []) + Filter(s[1..], f)
  }

  /** No element occurs twice. */
  predicate Distinct<T(==)>(s: seq<T>) {
    forall i, j :: 0 <= i < j < |s| ==> s[i] != s[j]
  }

  /** The elements of `s` without repetition, each at its first appearance
      (the key order of a Python dict filled from `s`). */
  function Dedup<T(==,!new)>(s: seq<T>): (r: seq<T>)
    ensures Distinct(r)
    ensures forall x :: x in r <==> x in s
  {
    if |s| == 0 then []
    else
      var d := Dedup(s[..|s| - 1]);
      assert s == s[..|s| - 1] + [s[|s| - 1]];
      if s[|s| - 1] in d then d else d + [s[|s| - 1]]
  }

  /** Dedup lists the distinct elements in the order they first appear. */
  lemma {:induction false} DedupFirstAppearanceOrder<T(!new)>(s: seq<T>)
    ensures forall i, j :: 0 <= i < j < |Dedup(s)| ==>
              IndexOf(s, Dedup(s)[i]).value < IndexOf(s, Dedup(s)[j]).value
  {
    if |s| > 0 {
      var p := s[..|s| - 1];
      var x := s[|s| - 1];
      assert s == p + [x];
      DedupFirstAppearanceOrder(p);
      var d := Dedup(p);
      forall y | y in d
        ensures IndexOf(s, y) == IndexOf(p, y)
      {
        IndexOfWithin(p, [x], y);
      }
      if x !in d {
        IndexOfAfter(p, [x], x);
        assert IndexOf([x], x) == Some(0);
        forall i | 0 <= i < |d|
          ensures IndexOf(s, d[i]).value < IndexOf(s, x).value
        {
          assert d[i] in d;
        }
        var r := Dedup(s);
        assert r == d + [x];
        forall i, j | 0 <= i < j < |r|
          ensures IndexOf(s, r[i]).value < IndexOf(s, r[j]).value
        {
          assert r[i] == d[i];
          assert r[i] in d;
          if j < |d| {
            assert r[j] == d[j];
            assert r[j] in d;
          }
        }
      } else {
        forall i, j | 0 <= i < j < |d|
          ensures IndexOf(s, d[i]).value < IndexOf(s, d[j]).value
        {
          assert d[i] in d && d[j] in d;
        }
      }
    }
  }

  /** The parts with `sep` between each neighbouring pair. */
  function Join<T>(parts: seq<seq<T>>, sep: T): seq<T>
  {
    if |parts| == 0 then []
    else if |parts| == 1 then parts[0]
    else parts[0] + [sep] + Join(parts[1..], sep)
  }

  /** The pieces between occurrences of `sep`; never empty. */
  function Split<T(==)>(s: seq<T>, sep: T): (parts: seq<seq<T>>)
    ensures |parts| > 0
    ensures forall i :: 0 <= i < |parts| ==> sep !in parts[i]
    decreases |s|
  {
    match IndexOf(s, sep)
    case None => [s]
    case Some(i) => [s[..i]] + Split(s[i + 1..], sep)
  }

  /** Joining the pieces of a split gives the original sequence back. */
  lemma {:induction false} JoinSplit<T>(s: seq<T>, sep: T)
    ensures Join(Split(s, sep), sep) == s
    decreases |s|
  {
    var r := IndexOf(s, sep);
    if r.Some? {
      var i := r.value;
      var rest := Split(s[i + 1..], sep);
      var parts := [s[..i]] + rest;
      assert Split(s, sep) == parts;
      assert |parts| > 1 && parts[0] == s[..i] && parts[1..] == rest;
      assert Join(parts, sep) == s[..i] + [sep] + Join(rest, sep);
      JoinSplit(s[i + 1..], sep);
      assert s == s[..i] + [sep] + s[i + 1..];
    }
  }

  /** Splitting a join gives the pieces back, when no piece holds `sep`. */
  lemma {:induction false} SplitJoin<T>(parts: seq<seq<T>>, sep: T)
    requires |parts| > 0
    requires forall i :: 0 <= i < |parts| ==> sep !in parts[i]
    ensures Split(Join(parts, sep), sep) == parts
  {
    if |parts| == 1 {
      assert sep !in parts[0];
    } else {
      var head := parts[0];
      var tail := Join(parts[1..], sep);
      var s := Join(parts, sep);
      assert s == head + [sep] + tail;
      assert sep !in head;
      assert s[..|head|] == head;
      IndexOfIs(s, sep, |head|);
      assert s[|head| + 1..] == tail;
      SplitJoin(parts[1..], sep);
      assert parts == [head] + parts[1..];
    }
  }
}

=== FILE: visibility.dfy ===
/** Which cards the bot offers a player who opens the inline card menu
    (`inline_callback`, main.py:102-126). */
module Visibility {
  import opened Wrappers
  import opened Dict
  import opened Dixit

  datatype Source = Hand | Table

  /** The inline answer: where the cards come from, the cards themselves,
      whether the "is impatient..." text is attached, and the clue taken
      from the query text (only the storyteller supplies one). */
  datatype Offer = Offer(source: Source, cards: seq<Card>, impatient: bool, clue: Option<string>)

  /** Whose move it is: the storyteller picks a card and clue in stage 1,
      the other players play a card in stage 2 and vote in stage 3. */
  predicate ExpectedToAct(stage: Stage, isStoryteller: bool) {
    if isStoryteller then stage == StorytellerTurn
    else stage == PlayersTurn || stage == Voting
  }

  /** Lines 113-123: the four-way choice. */
  function CardsToOffer(stage: Stage, isStoryteller: bool, hand: seq<Card>,
                        tableCards: seq<Card>, query: string): (o: Offer)
    ensures o.source == Table <==> stage == Voting
    ensures o.cards == if o.source == Table then tableCards else hand
    ensures o.impatient <==> !ExpectedToAct(stage, isStoryteller)
    ensures o.clue.Some? <==> stage == StorytellerTurn && isStoryteller
    ensures o.clue.Some? ==> o.clue.value == query
  {
    if stage == StorytellerTurn && isStoryteller then
      Offer(Hand, hand, false, Some(query))
    else if stage == PlayersTurn && !isStoryteller then
      Offer(Hand, hand, false, None)
    else if stage == Voting && !isStoryteller then
      Offer(Table, tableCards, false, None)
    else
      Offer(if stage == Voting then Table else Hand,
            if stage == Voting then tableCards else hand,
            true, None)
  }

  /** The offer for `player`, whose hand is `hand`, in game `g`: the table
      cards are the values of the table. */
  function OfferFor(g: Game, player: Player, hand: seq<Card>, query: string): (o: Offer)
    ensures o.cards == if g.stage == Voting then Values(g.table) else hand
    ensures o.impatient <==> !ExpectedToAct(g.stage, player == g.storyteller)
  {
    CardsToOffer(g.stage, player == g.storyteller, hand, Values(g.table), query)
  }

  /** The cards on offer depend on the stage alone, not on whether the
      caller is the storyteller; the role only decides the wait text and
      the clue. */
  lemma OfferedCardsIgnoreRole(stage: Stage, hand: seq<Card>, tableCards: seq<Card>, query: string)
    ensures CardsToOffer(stage, true, hand, tableCards, query).cards
         == CardsToOffer(stage, false, hand, tableCards, query).cards
    ensures CardsToOffer(stage, true, hand, tableCards, query).source
         == CardsToOffer(stage, false, hand, tableCards, query).source
  {
  }
}

=== FILE: wrappers.dfy ===
/** Optional values and success-or-failure results, used wherever the bot
    either finds something or raises. */
module Wrappers {

  datatype Option<+T> = None | Some(value: T) {

    /** The value, or `default` when there is none. */
    function GetOr(default: T): T {
      match this
      case Some(v) => v
      case None => default
    }
  }

  /** The outcome of a call that may raise: the value it returns, or the
      exception it raises. */
  datatype Result<+R, +E> = Success(value: R) | Failure(error: E)
}
